=== FILE: README.md ===
# Conference-paper portal: a Dafny model of its request logic

The portal lets signed-in users publish conferences and submit papers to
them. The paper files go to a Backblaze B2 bucket. This project models the
parts of the application that make decisions:

- the client-side file picker's extension and size gate;
- the upload endpoint's ladder of checks, its calls to the storage service,
  the object key it invents and the download URL it returns;
- paper creation and its link into the conference's paper list;
- the Conference, Paper and User schemas, with their validation and defaults;
- the conference listing (newest first) and conference creation;
- signup with unique emails;
- the one-off migration that backfills missing file URLs.

Each HTTP handler is a pure function of the request and of the values the
outside world supplies: the new ObjectId, the clock, the hash function, and
the outcome of each call to Backblaze B2 (the storage service holding the
paper files). The paper, conference and upload handlers also take the
session's user id (`Option<Id>`); signup does not consult a session. The
paper, conference and signup handlers take the database state and return
the response with the new database state. The upload handler touches no
database: it returns the response with the B2 calls it made, in order.
The database is three insertion-ordered collections of documents, one each
for users, conferences and papers. A duplicate `_id` or `email` on insert is
the unique-index error, which each handler's catch turns into a 500.

Files, one module each: `wrappers.dfy` (Option, Result, JavaScript
truthiness), `text.dfy` (the JavaScript string operations used),
`models.dfy`, `users.dfy`, `store.dfy`, `http.dfy`, `blob_url.dfy`,
`file_upload.dfy`, `upload_url.dfy`, `papers_api.dfy`,
`conferences_api.dfy`, `signup.dfy`, `migrate_papers.dfy`.

Some behaviours of the code worth knowing, which the model keeps:

- The object key is `userId/timestamp-fileName`, with a '-' between the
  timestamp and the name.
- The accepted extensions are a fixed list (.pdf, .doc, .docx). The
  component's `accept` prop only sets the file input's attribute and plays
  no part in validation.
- An unset `NEXT_PUBLIC_BACKBLAZE_BUCKET_NAME` is not among the
  configuration checks. The template literal then writes "undefined" into
  the returned URL, and `BucketText` models that.
- A file whose name has no '.' is judged by its whole name, so a file
  called `pdf` passes the type check.

## Model

| member | source | states |
|---|---|---|
| Text.AfterLast | components/FileUpload.tsx:44 | `split('.').pop()`: the result holds no '.', is a suffix of the name, and is preceded by a '.' unless it is the whole name |
| Text.LowerChar | components/FileUpload.tsx:44 | `toLowerCase` on one character, ASCII only: 'A'..'Z' move up by 32 to 'a'..'z', every other character is unchanged |
| Text.Lower | components/FileUpload.tsx:44 | `toLowerCase` on a string, ASCII only: same length, and each character is lowered by LowerChar |
| Text.AfterLastUnique | components/FileUpload.tsx:44 | a '.'-free string x is the popped segment of t exactly when t is x or ends with '.' followed by x |
| Text.LowerAfterLast | components/FileUpload.tsx:44 | lower-casing the popped segment equals popping the segment of the lower-cased name |
| Text.DecimalRoundTrip | pages/api/papers/upload-url.ts:61-62 | the timestamp's decimal rendering in the key reads back as the same number |
| Text.Decimal | pages/api/papers/upload-url.ts:62 | `${timestamp}` (and `${maxSize}` at components/FileUpload.tsx:54): a non-empty string of decimal digits without a leading zero; DecimalRoundTrip reads it back |
| Text.IndexOfAfter | pages/api/papers/upload-url.ts:67 | the first ',' of header + ',' + rest is the one after a comma-free header |
| Text.IndexOf | pages/api/papers/upload-url.ts:67 | where `split(',')` cuts: no position iff the string holds no ','; otherwise a position holding ',' with no ',' before it |
| FileUpload.PropsWithDefaults | components/FileUpload.tsx:9 | `maxSize` defaults to 10 and `accept` to ".pdf,.doc,.docx"; given props are kept |
| FileUpload.ValidateAndProcessFile | components/FileUpload.tsx:41-62 | error is empty iff type and size pass; a bad type reports the type message, a good type with excessive size the size message; on rejection nothing is selected and onFileSelect is not called; on acceptance the file is selected and passed to onFileSelect exactly once |
| FileUpload.TypeAcceptedCharacterisation | components/FileUpload.tsx:43-46 | a file passes the type check iff its lower-cased name is pdf, doc or docx or ends with '.pdf', '.doc' or '.docx' |
| FileUpload.TypeAcceptedOnLowered | components/FileUpload.tsx:43-46 | the type check accepts iff the lower-cased name's last segment is one of pdf, doc, docx |
| FileUpload.UpperCaseAccepted | components/FileUpload.tsx:44 | 'PAPER.PDF' passes the type check |
| FileUpload.InnerExtensionIgnored | components/FileUpload.tsx:44 | 'a.pdf.exe' fails the type check |
| FileUpload.BareNameAccepted | components/FileUpload.tsx:44 | a name without '.' is taken whole: its segment is "pdf", its extension ".pdf", and it passes |
| FileUpload.SizeBoundary | components/FileUpload.tsx:53 | a size of exactly maxSize×1024×1024 bytes passes; one byte more gets the size message |
| FileUpload.TypeCheckedFirst | components/FileUpload.tsx:46-57 | a file bad in both type and size reports the type message, which differs from the size message |
| FileUpload.AcceptPropIgnored | components/FileUpload.tsx:41-62 | the outcome of validation does not depend on the `accept` prop |
| FileUpload.ClearFile | components/FileUpload.tsx:64-66 | afterwards no file is selected and the error is empty |
| FileUpload.ClearFileRestoresInitialState | components/FileUpload.tsx:10-12 | clearing returns the component to its mount-time state (no error, nothing selected), apart from an ongoing drag |
| FileUpload.HandleFileChange | components/FileUpload.tsx:15-20 | an empty choice changes nothing; otherwise the first file is validated; onFileSelect is called at most once |
| FileUpload.HandleDrop | components/FileUpload.tsx:32-39 | the drag state ends, then the first dropped file, if any, is validated |
| Models.StatusOrDefault | lib/models.ts:55-59 | an omitted status defaults to pending; a given one is accepted iff it is pending, accepted or rejected |
| Models.ParseStatus | lib/models.ts:57 | the enum validator: a string is a status iff it is 'pending', 'accepted' or 'rejected' |
| Models.StatusRoundTrip | lib/models.ts:57 | every status round-trips through its name and only its own name parses to it |
| Models.CreateConference | lib/models.ts:4-39 | creation succeeds iff title, description, image, start, end and deadline are present; the result is valid, copies the fields, has no papers by default and createdAt = now by default; a failure names at least one path |
| Models.NoDateOrderRequired | lib/models.ts:17-30 | a conference that ends before it starts, with a deadline after both, is accepted |
| Models.DuplicatePapersAllowed | lib/models.ts:31-34 | appending an already listed paper id keeps a conference valid and lists the id twice |
| Models.CreatePaper | lib/models.ts:42-74 | creation succeeds iff title, abstract, fileUrl, author and conference are present and any given status is in the enum; status defaults to pending and createdAt to now |
| Users.CreateUser | models/User.ts:3-21 | creation succeeds iff email, password and name are non-empty; the user carries exactly those fields and createdAt = now by default |
| Users.InsertUser | models/User.ts:7 | the unique index refuses a user whose email or id is already stored; otherwise the user is appended |
| Users.InsertKeepsEmailsUnique | models/User.ts:7 | a successful insert keeps all stored emails distinct |
| Users.Summary | pages/api/auth/signup.ts:35-42 | the user object in the 201 reply carries the id, email and name of the created user, and no password |
| Store.FindConference | pages/api/papers/index.ts:48-49 | finds the first conference with the id, and finds none exactly when no conference has it |
| Store.PushPaper | pages/api/papers/index.ts:48-51 | the `$push` appends the paper id to the matching conference only; with no such conference nothing changes |
| Store.InsertPaper | pages/api/papers/index.ts:37-44 | the insert behind `Paper.create` succeeds iff no stored paper has the id, and then appends the paper at the end |
| Store.InsertConference | pages/api/conferences/index.ts:31 | the insert behind `Conference.create` succeeds iff no stored conference has the id, and then appends the conference at the end |
| BlobUrl.BucketText | pages/api/papers/upload-url.ts:90 | an unset bucket name is rendered as "undefined" |
| BlobUrl.FileUrl | pages/api/papers/upload-url.ts:90 | the download URL template; its contract fixes only the length (prefix plus key), and KeyFromFileUrl states its value: stripping the bucket's prefix yields the key |
| BlobUrl.ObjectKey | pages/api/papers/upload-url.ts:62 | the key template: it starts with the user id and '/', ends with '-' and the file name, and has the timestamp's digits between; ObjectKeyRoundTrip parses it back |
| BlobUrl.KeyFromFileUrl | pages/api/papers/upload-url.ts:90 | removing 'https://f002.backblazeb2.com/file/' + bucket + '/' from the URL gives back the key |
| BlobUrl.FileUrlInjective | pages/api/papers/upload-url.ts:90 | within one bucket, distinct keys give distinct URLs |
| BlobUrl.ObjectKeyRoundTrip | pages/api/papers/upload-url.ts:60-62 | a key built from a user id without '/' parses back into that user id, timestamp and file name |
| BlobUrl.ObjectKeyInjective | pages/api/papers/upload-url.ts:60-62 | for user ids without '/', equal keys imply equal user, timestamp and file name |
| BlobUrl.KeyDeterminesTimestamp | pages/api/papers/upload-url.ts:60-62 | for any user id, the same user uploading the same file name at two different milliseconds gets two different keys |
| UploadUrl.DataPayload | pages/api/papers/upload-url.ts:67 | there is a payload iff fileData contains ','; the payload holds no ',' |
| UploadUrl.DataPayloadOfDataUrl | pages/api/papers/upload-url.ts:67 | for header,data[,…] with comma-free header and data the payload is exactly the data part |
| UploadUrl.HandleUploadUrl | pages/api/papers/upload-url.ts:11-104 | 405, then 401, then 500 'Internal server error' for a null body, then 400 for a missing field, then 500 for missing configuration; no storage call unless all of these pass; an authorize failure gives its own 500 after the single authorize call; once authorized, getUploadUrl is always the second call and every later failure (no upload URL, no ',' in the data, a refused upload, a non-JSON reply) gives 500 'Failed to upload file to Backblaze'; the third call, when there is one, is the upload of the key, content type and payload, even when that upload is then refused or its reply is not JSON; made exactly when getUploadUrl succeeded and the payload exists; 200 exactly when every step succeeds, and its body is only the URL of the uploaded key |
| UploadUrl.ReturnedUrlNamesUploadedObject | pages/api/papers/upload-url.ts:60-95 | on 200, stripping the URL prefix gives the X-Bz-File-Name sent, which parses back to user id, timestamp and file name |
| UploadUrl.DistinctUploadsDistinctUrls | pages/api/papers/upload-url.ts:60-95 | two successful uploads by users without '/' in their ids return the same response only for the same user, timestamp and file name |
| PapersApi.HandlePapers | pages/api/papers/index.ts:15-61 | non-POST gives 405, no session 401, a null body 500, a missing field 400, none of them changes the store; a complete body whose new id is already taken gives 500; 201 exactly for a complete body and a fresh id, whatever the conference; the new paper is pending, authored by the session user, created at the current time, copies the body and is appended, the conferences receive the `$push`, users are untouched |
| PapersApi.NewPaperLinkedOnce | pages/api/papers/index.ts:47-51 | on 201 the conference's list gains the new id once at its end; every other conference is unchanged |
| PapersApi.UnknownConferenceStillCreated | pages/api/papers/index.ts:31-54 | with an unknown conference id the paper is still created with 201 and no conference changes |
| ConferencesApi.SortNewestFirst | pages/api/conferences/index.ts:17 | the listing is ordered by createdAt non-increasing and is a permutation of the stored conferences |
| ConferencesApi.HandleConferences | pages/api/conferences/index.ts:15-39 | GET gives 200 with a newest-first permutation and changes nothing; POST without session 401; a schema-valid body gives 201 and appends exactly that conference; an invalid body, or any other failed create such as a taken id, gives 500 and changes nothing; other methods 405 |
| ConferencesApi.ListingIgnoresSession | pages/api/conferences/index.ts:13-18 | the GET result is the same with or without a session |
| ConferencesApi.EveryConferenceListed | pages/api/conferences/index.ts:17 | every stored conference appears in the listing |
| Signup.HandleSignup | pages/api/auth/signup.ts:10-46 | non-POST gives 405; a taken email gives 400 'User already exists'; a null body, a missing password or a failed create gives 500, and every other non-201 POST outcome is that 500; only the users collection changes and only on 201; on 201 one user is appended with the given email and name and the hash of the password, created at the current time, and the response carries its id, email and name and no password |
| Signup.SignupKeepsEmailsUnique | pages/api/auth/signup.ts:20-33 | every signup preserves "no two users share an email" |
| Signup.SecondSignupRefused | pages/api/auth/signup.ts:20-23 | after a successful signup, another one with the same email gets 400 and changes nothing |
| MigratePapers.BackfillOne | scripts/migrate-papers.js:34-41 | a paper lacking fileUrl gets one, a paper with one is unchanged, and no other field changes |
| MigratePapers.DefaultFileUrl | scripts/migrate-papers.js:39 | stripping the bucket's URL prefix from the assigned URL yields the paper's id |
| MigratePapers.Backfill | scripts/migrate-papers.js:37-41 | the loop keeps the number and order of the papers and backfills each one independently |
| MigratePapers.Migrate | scripts/migrate-papers.js:7-43 | a missing MongoDB URI, then a missing bucket name, then a failed connection abort before any paper is touched, each with its own error; otherwise every paper is backfilled |
| MigratePapers.BackfillEffect | scripts/migrate-papers.js:34-43 | after the run every paper has a fileUrl, those that had one are unchanged, and no other field changes |
| MigratePapers.BackfilledUrlNamesPaper | scripts/migrate-papers.js:39 | stripping the URL prefix from a backfilled URL yields the paper's id |
| MigratePapers.MigrateIdempotent | scripts/migrate-papers.js:34 | running the migration twice gives the same papers as running it once |

## Left out

- Rendering, the drag-over and drag-leave handlers, and resetting the DOM
  file input in `clearFile` (components/FileUpload.tsx:22-30, 67-69) are
  presentation only.
- `toLowerCase` is modelled on ASCII letters only. No non-ASCII character
  lowers to p, d, f, o, c or x, so the accept/reject decision is unaffected.
- `maxSize` is a natural number of megabytes. Fractional limits and the
  exponent notation JavaScript uses for very large numbers in the message
  are not modelled.
- Backblaze B2 is not modelled. Whether `authorize`, `getUploadUrl`, the
  upload POST and the JSON parse of its reply succeed is a parameter, and a
  thrown `fetch` counts as a refused upload. The upload URL, the
  authorization token and the `X-Bz-Content-Sha1` header are not modelled.
- Base64 decoding is not modelled. `Buffer.from(…, 'base64')` never throws
  on a string, so the model keeps the base64 text of the upload call.
- MongoDB is an abstract store of insertion-ordered collections.
  Connection handling, ObjectId casting, database errors other than
  duplicate keys, and the tie order of the database's sort are not
  modelled. Creating a conference with an `_id` in its body is not
  modelled either; the new id is a parameter.
- The fields the upload, paper and signup handlers destructure are strings
  or absent; non-string values there are not modelled. A missing body makes
  destructuring throw, which gives 500.
- Models.CreateConference: the dates and paper ids arrive in the JSON body
  as strings that Mongoose casts; the model takes them already cast (dates
  as numbers, ids as strings), so a value that fails the cast, which makes
  `Conference.create` throw, cannot be expressed.
- ConferencesApi.HandleConferences: for the same reason the 500 that a
  body with an uncastable date or paper id produces is not modelled; such
  a body is outside the model's request type. A non-object body is not
  modelled either.
- Signup: bcrypt is an uninterpreted `hash` parameter. A body without an
  email is looked up as matching no user; the validation of `User.create`
  then refuses it either way.
- The migration: strict-mode handling by mongoose of the script's own
  schema, which does not declare `fileUrl`, is not modelled. The model
  applies the query and the update as written. A database failure part-way
  through the loop is not modelled, and neither is logging.
- Concurrency is not modelled. Each handler runs alone, so the
  check-then-insert race in signup and concurrent `$push`es are out of scope.
- `dbConnect` and `getServerSession` are not modelled; the session is an
  optional user id.

=== FILE: blob_url.dfy ===
/** How the application names objects in the Backblaze B2 bucket and how it
    turns an object name into the public download URL. Shared by the upload
    endpoint and the backfill migration. */
module BlobUrl {
  import opened Wrappers
  import opened Text
  import opened Models

  /** The fixed download host and path of the bucket's public files. */
  const DownloadHost: string := "https://f002.backblazeb2.com/file/"

  /** The text a template literal produces for the bucket-name variable: its
      value, or "undefined" when it is not set. */
  function BucketText(bucketName: Option<string>): (r: string)
    ensures bucketName.Some? ==> r == bucketName.value
    ensures bucketName.None? ==> r == "undefined"
  {
    match bucketName
    case Some(b) => b
    case None => "undefined"
  }

  /** Everything of a download URL before the object key. */
  function UrlPrefix(bucket: string): string {
    DownloadHost + bucket + "/"
  }

  /** The public URL of the object `key` in `bucket`. */
  function FileUrl(bucket: string, key: string): (r: string)
    ensures |r| == |UrlPrefix(bucket)| + |key|
  {
    UrlPrefix(bucket) + key
  }

  /** Removing the bucket's URL prefix gives back exactly the object key. */
  lemma KeyFromFileUrl(bucket: string, key: string)
    ensures StripPrefix(FileUrl(bucket, key), UrlPrefix(bucket)) == Some(key)
  {
  }

  /** Within one bucket, distinct keys have distinct URLs. */
  lemma FileUrlInjective(bucket: string, k1: string, k2: string)
    requires FileUrl(bucket, k1) == FileUrl(bucket, k2)
    ensures k1 == k2
  {
    KeyFromFileUrl(bucket, k1);
    KeyFromFileUrl(bucket, k2);
  }

  /** The name an upload is stored under: user id, '/', the millisecond
      timestamp, '-', the client's file name. */
  function ObjectKey(userId: Id, timestamp: nat, fileName: string): (r: string)
    ensures |r| == |userId| + 1 + |Decimal(timestamp)| + 1 + |fileName|
    ensures r[..|userId|] == userId && r[|userId|] == '/'
    ensures r[|r| - |fileName| - 1] == '-' && r[|r| - |fileName|..] == fileName
  {
    userId + "/" + Decimal(timestamp) + "-" + fileName
  }

  datatype KeyParts = KeyParts(userId: Id, timestamp: nat, fileName: string)

  /** Reads an object key back into its parts: the user id runs to the first
      '/', the timestamp's digits to the next '-', the file name is the rest. */
  function ParseObjectKey(key: string): (r: Option<KeyParts>)
    ensures r.Some? ==> '/' !in r.value.userId
  {
    match IndexOf(key, '/')
    case None => None
    case Some(i) =>
      assert forall k :: 0 <= k < i ==> key[..i][k] == key[k];
      match ParseStampAndName(key[i + 1..])
      case None => None
      case Some(tail) => Some(KeyParts(key[..i], tail.0, tail.1))
  }

  /** The part of a key after the user id: digits up to the first '-', then
      the file name. */
  function ParseStampAndName(rest: string): Option<(nat, string)> {
    match IndexOf(rest, '-')
    case None => None
    case Some(j) =>
      if IsDigits(rest[..j]) then Some((ParseDecimal(rest[..j]), rest[j + 1..])) else None
  }

  lemma StampAndNameRoundTrip(timestamp: nat, fileName: string)
    ensures ParseStampAndName(Decimal(timestamp) + "-" + fileName) == Some((timestamp, fileName))
  {
    var d := Decimal(timestamp);
    var rest := d + "-" + fileName;
    assert rest == d + ['-'] + fileName;
    assert '-' !in d by {
      forall k | 0 <= k < |d| ensures d[k] != '-' {
        assert '0' <= d[k] <= '9';
      }
    }
    IndexOfAfter(d, '-', fileName);
    assert rest[..|d|] == d;
    assert rest[|d| + 1..] == fileName;
    DecimalRoundTrip(timestamp);
  }

  /** An object key built from a user id without '/' parses back to the very
      parts it was built from. */
  lemma ObjectKeyRoundTrip(userId: Id, timestamp: nat, fileName: string)
    requires '/' !in userId
    ensures ParseObjectKey(ObjectKey(userId, timestamp, fileName)) == Some(KeyParts(userId, timestamp, fileName))
  {
    var rest := Decimal(timestamp) + "-" + fileName;
    var key := ObjectKey(userId, timestamp, fileName);
    assert key == userId + ['/'] + rest;
    IndexOfAfter(userId, '/', rest);
    assert key[|userId| + 1..] == rest;
    assert key[..|userId|] == userId;
    StampAndNameRoundTrip(timestamp, fileName);
  }

  /** Two uploads of the same file name by the same user, at different
      milliseconds, get different keys, whatever characters the user id
      holds. */
  lemma KeyDeterminesTimestamp(userId: Id, t1: nat, t2: nat, fileName: string)
    requires ObjectKey(userId, t1, fileName) == ObjectKey(userId, t2, fileName)
    ensures t1 == t2
  {
    var d1, d2 := Decimal(t1), Decimal(t2);
    var k := ObjectKey(userId, t1, fileName);
    assert k == userId + "/" + d1 + "-" + fileName;
    assert k == userId + "/" + d2 + "-" + fileName;
    assert |d1| == |d2|;
    assert k[|userId| + 1..|userId| + 1 + |d1|] == d1;
    assert k[|userId| + 1..|userId| + 1 + |d2|] == d2;
    DecimalInjective(t1, t2);
  }

  /** Keys are unique: two uploads by users whose ids contain no '/' get the
      same key only if user, timestamp and file name all agree. */
  lemma ObjectKeyInjective(u1: Id, t1: nat, f1: string, u2: Id, t2: nat, f2: string)
    requires '/' !in u1 && '/' !in u2
    requires ObjectKey(u1, t1, f1) == ObjectKey(u2, t2, f2)
    ensures u1 == u2 && t1 == t2 && f1 == f2
  {
    ObjectKeyRoundTrip(u1, t1, f1);
    ObjectKeyRoundTrip(u2, t2, f2);
  }
}

=== FILE: conferences_api.dfy ===
/** pages/api/conferences/index.ts: the public listing, newest first, and
    creation by any signed-in user. */
module ConferencesApi {
  import opened Wrappers
  import opened Models
  import opened Store
  import opened Http

  /** Ordered by `createdAt`, newest first (non-increasing). */
  predicate NewestFirst(cs: seq<Conference>) {
    forall i, j :: 0 <= i < j < |cs| ==> cs[i].createdAt >= cs[j].createdAt
  }

  /** Places `c` into a newest-first list, before every entry that is not
      newer than it. */
  function Insert(c: Conference, cs: seq<Conference>): (r: seq<Conference>)
    requires NewestFirst(cs)
    ensures NewestFirst(r)
    ensures multiset(r) == multiset(cs) + multiset{c}
    ensures |r| == |cs| + 1
    ensures r[0] == c || (|cs| > 0 && r[0] == cs[0])
    decreases |cs|
  {
    if |cs| == 0 || c.createdAt >= cs[0].createdAt then [c] + cs
    else
      var rest := Insert(c, cs[1..]);
      assert cs == [cs[0]] + cs[1..];
      [cs[0]] + rest
  }

  /** `Conference.find().sort({ createdAt: -1 })`: every stored conference,
      each as often as it is stored, newest first. Conferences created at the
      same instant may come in any order; this one is insertion sort's. */
  function SortNewestFirst(cs: seq<Conference>): (r: seq<Conference>)
    ensures NewestFirst(r)
    ensures multiset(r) == multiset(cs)
    ensures |r| == |cs|
    decreases |cs|
  {
    if |cs| == 0 then []
    else
      assert cs == [cs[0]] + cs[1..];
      Insert(cs[0], SortNewestFirst(cs[1..]))
  }

  /** The handler. `session` is the signed-in user's id, if any; `newId` is
      the ObjectId `Conference.create` assigns and `now` the creation time. */
  function HandleConferences(req: Request<ConferenceFields>, session: Option<Id>, newId: Id, now: Date,
                             store: Store): (r: Handled)
    // GET: public, read-only, a newest-first permutation of the collection
    ensures req.verb == "GET" ==>
      && r.response.status == 200
      && r.response.body.ConferenceList?
      && NewestFirst(r.response.body.conferences)
      && multiset(r.response.body.conferences) == multiset(store.conferences)
    ensures req.verb != "POST" ==> r.store == store
    ensures req.verb != "GET" && req.verb != "POST" <==> r.response == Response(405, Message("Method not allowed"))
    ensures req.verb == "POST" && session.None? ==> r.response == Response(401, Message("Unauthorized"))
    // POST: one more conference, built from a schema-valid body
    ensures r.response.status == 201 <==>
      req.verb == "POST" && session.Some? && ConferenceFieldsComplete(req.body)
      && !ConferenceIdTaken(store.conferences, newId)
    ensures r.response.status == 201 ==>
      && r.response.body.ConferenceDoc?
      && CreateConference(req.body, newId, now) == Success(r.response.body.conference)
      && ConferenceValid(r.response.body.conference)
      && r.store == store.(conferences := store.conferences + [r.response.body.conference])
    // a body the schema rejects is a server error, not a bad request
    ensures req.verb == "POST" && session.Some? && !ConferenceFieldsComplete(req.body) ==>
      r.response == InternalError && r.store == store
    // any other failure of `Conference.create`, such as a taken `_id`, also
    // ends in the catch
    ensures req.verb == "POST" && session.Some? && r.response.status != 201 ==> r.response == InternalError
    ensures r.response.status in {200, 201, 401, 405, 500}
    ensures r.response.status != 201 ==> r.store == store
  {
    if req.verb == "GET" then
      Handled(Response(200, ConferenceList(SortNewestFirst(store.conferences))), store)
    else if req.verb == "POST" then
      if session.None? then Handled(Response(401, Message("Unauthorized")), store)
      else
        match CreateConference(req.body, newId, now)
        case Failure(_) => Handled(InternalError, store)
        case Success(c) =>
          match InsertConference(store.conferences, c)
          case Failure(_) => Handled(InternalError, store)
          case Success(conferences) => Handled(Response(201, ConferenceDoc(c)), store.(conferences := conferences))
    else Handled(Response(405, Message("Method not allowed")), store)
  }

  /** The listing does not depend on who asks, or whether anyone is signed in. */
  lemma ListingIgnoresSession(req: Request<ConferenceFields>, s1: Option<Id>, s2: Option<Id>, newId: Id,
                              now: Date, store: Store)
    requires req.verb == "GET"
    ensures HandleConferences(req, s1, newId, now, store) == HandleConferences(req, s2, newId, now, store)
  {
  }

  /** A newest-first list holds each stored conference exactly as often as
      the store does, so in particular every conference is listed. */
  lemma EveryConferenceListed(store: Store, c: Conference)
    requires c in store.conferences
    ensures c in SortNewestFirst(store.conferences)
  {
    var r := SortNewestFirst(store.conferences);
    assert multiset(r)[c] == multiset(store.conferences)[c] > 0;
  }
}

=== FILE: file_upload.dfy ===
/** The client-side file picker of components/FileUpload.tsx: the extension
    and size gate applied to a chosen or dropped file, the component state it
    leaves behind, and the calls it makes to the `onFileSelect` callback. */
module FileUpload {
  import opened Wrappers
  import opened Text

  /** A browser `File`: its name and its size in bytes. */
  datatype File = File(name: string, size: nat)

  /** The component's props after defaults. `accept` only feeds the file
      input's `accept` attribute; the validation below never reads it. */
  datatype Props = Props(accept: string, maxSize: nat)

  const DefaultAccept: string := ".pdf,.doc,.docx"
  const DefaultMaxSize: nat := 10

  /** Destructuring with defaults: an omitted prop takes its default. */
  function PropsWithDefaults(accept: Option<string>, maxSize: Option<nat>): (r: Props)
    ensures maxSize.None? ==> r.maxSize == 10
    ensures accept.None? ==> r.accept == ".pdf,.doc,.docx"
    ensures maxSize.Some? ==> r.maxSize == maxSize.value
    ensures accept.Some? ==> r.accept == accept.value
  {
    Props(accept.GetOr(DefaultAccept), maxSize.GetOr(DefaultMaxSize))
  }

  /** The component's state: the error text, the selected file and whether a
      drag is over the drop zone. */
  datatype UiState = UiState(error: string, selected: Option<File>, dragging: bool)

  /** The state the component mounts with. */
  const InitialState: UiState := UiState("", None, false)

  /** The state after an event, and the files handed to `onFileSelect`
      during it, in call order. */
  datatype Step = Step(state: UiState, notified: seq<File>)

  /** The hard-coded list of accepted extensions. */
  const ValidTypes: seq<string> := [".pdf", ".doc", ".docx"]

  const TypeErrorMessage: string := "Please upload a PDF or Word document"

  function SizeErrorMessage(maxSize: nat): string {
    "File size must be less than " + Decimal(maxSize) + "MB"
  }

  /** The extension tested: '.' followed by the lower-cased text after the
      name's last '.', or the whole lower-cased name when it has no '.'. */
  function Extension(name: string): string {
    "." + Lower(AfterLast(name, '.'))
  }

  predicate TypeAccepted(name: string) {
    Extension(name) in ValidTypes
  }

  /** The size limit in bytes for a limit given in megabytes. */
  function MaxBytes(maxSize: nat): nat {
    maxSize * 1024 * 1024
  }

  /** `validateAndProcessFile`: the type check, then the size check, then
      selection and a single call to `onFileSelect`. */
  function ValidateAndProcessFile(props: Props, s: UiState, file: File): (r: Step)
    ensures r.state.dragging == s.dragging
    ensures r.state.error == "" <==> TypeAccepted(file.name) && file.size <= MaxBytes(props.maxSize)
    ensures !TypeAccepted(file.name) ==> r.state.error == TypeErrorMessage
    ensures TypeAccepted(file.name) && file.size > MaxBytes(props.maxSize) ==>
      r.state.error == SizeErrorMessage(props.maxSize)
    ensures r.state.error != "" ==> r.state.selected.None? && r.notified == []
    ensures r.state.error == "" ==> r.state.selected == Some(file) && r.notified == [file]
  {
    if !TypeAccepted(file.name) then
      Step(s.(error := TypeErrorMessage, selected := None), [])
    else if file.size > MaxBytes(props.maxSize) then
      Step(s.(error := SizeErrorMessage(props.maxSize), selected := None), [])
    else
      Step(s.(error := "", selected := Some(file)), [file])
  }

  /** `clearFile`: no file selected and no error. */
  function ClearFile(s: UiState): (r: UiState)
    ensures r.selected.None? && r.error == ""
    ensures r.dragging == s.dragging
  {
    s.(selected := None, error := "")
  }

  /** Clearing returns the component to the state it mounted with, apart
      from an ongoing drag. */
  lemma ClearFileRestoresInitialState(s: UiState)
    ensures ClearFile(s) == InitialState.(dragging := s.dragging)
    ensures !s.dragging ==> ClearFile(s) == InitialState
  {
  }

  /** `handleFileChange`: the first chosen file, if any, is validated; an
      empty choice changes nothing. */
  function HandleFileChange(props: Props, s: UiState, files: seq<File>): (r: Step)
    ensures |files| == 0 ==> r == Step(s, [])
    ensures |files| > 0 ==> r == ValidateAndProcessFile(props, s, files[0])
    ensures |r.notified| <= 1
  {
    if |files| == 0 then Step(s, []) else ValidateAndProcessFile(props, s, files[0])
  }

  /** `handleDrop`: the drag ends, then the first dropped file, if any, is
      validated. */
  function HandleDrop(props: Props, s: UiState, files: seq<File>): (r: Step)
    ensures !r.state.dragging
    ensures |files| == 0 ==> r == Step(s.(dragging := false), [])
    ensures |files| > 0 ==> r == ValidateAndProcessFile(props, s.(dragging := false), files[0])
  {
    HandleFileChange(props, s.(dragging := false), files)
  }

  /** An independent description of the type check: the lower-cased name is
      "pdf", "doc" or "docx" itself, or ends with '.' followed by one of them. */
  lemma TypeAcceptedCharacterisation(name: string)
    ensures TypeAccepted(name) <==>
      || SegmentAtEnd(Lower(name), '.', "pdf")
      || SegmentAtEnd(Lower(name), '.', "doc")
      || SegmentAtEnd(Lower(name), '.', "docx")
  {
    TypeAcceptedOnLowered(name);
    LastSegmentIsOneOf(Lower(name), "pdf", "doc", "docx");
  }

  /** The last '.'-segment is one of three separator-free words exactly
      when the string ends with that word after a '.', or is the word. */
  lemma LastSegmentIsOneOf(t: string, x: string, y: string, z: string)
    requires '.' !in x && '.' !in y && '.' !in z
    ensures var a := AfterLast(t, '.');
      (a == x || a == y || a == z) <==>
      SegmentAtEnd(t, '.', x) || SegmentAtEnd(t, '.', y) || SegmentAtEnd(t, '.', z)
  {
    AfterLastUnique(t, '.', x);
    AfterLastUnique(t, '.', y);
    AfterLastUnique(t, '.', z);
  }

  /** The type check in terms of the lower-cased name's last segment. */
  lemma TypeAcceptedOnLowered(name: string)
    ensures var a := AfterLast(Lower(name), '.');
      TypeAccepted(name) <==> a == "pdf" || a == "doc" || a == "docx"
  {
    LowerAfterLast(name, '.');
    DotPrefixedType(Lower(AfterLast(name, '.')));
  }

  lemma DotPrefixedType(x: string)
    ensures "." + x in ValidTypes <==> x == "pdf" || x == "doc" || x == "docx"
  {
    var d := "." + x;
    assert d[1..] == x;
    assert "." + "pdf" == ".pdf";
    assert "." + "doc" == ".doc";
    assert "." + "docx" == ".docx";
    if d == ".pdf" {
      assert x == ".pdf"[1..];
    } else if d == ".doc" {
      assert x == ".doc"[1..];
    } else if d == ".docx" {
      assert x == ".docx"[1..];
    }
  }

  /** The check is case-insensitive: an upper-case extension passes. */
  lemma UpperCaseAccepted()
    ensures TypeAccepted("PAPER.PDF")
  {
    AfterLastUnique("PAPER.PDF", '.', "PDF");
    assert Lower("PDF") == "pdf";
    assert "." + "pdf" == ".pdf";
  }

  /** A name without any '.' is taken whole, so a file named "pdf" passes. */
  lemma BareNameAccepted()
    ensures AfterLast("pdf", '.') == "pdf"
    ensures Extension("pdf") == ".pdf"
    ensures TypeAccepted("pdf")
  {
    AfterLastUnique("pdf", '.', "pdf");
    assert Lower("pdf") == "pdf";
    assert "." + "pdf" == ".pdf";
  }

  /** Only the text after the last '.' counts. */
  lemma InnerExtensionIgnored()
    ensures !TypeAccepted("a.pdf.exe")
  {
    TypeAcceptedCharacterisation("a.pdf.exe");
    assert Lower("a.pdf.exe") == "a.pdf.exe";
  }

  /** The size bound is inclusive: a file of exactly the limit passes and one
      byte more is refused with the size message. */
  lemma SizeBoundary(props: Props, s: UiState, name: string)
    requires TypeAccepted(name)
    ensures ValidateAndProcessFile(props, s, File(name, MaxBytes(props.maxSize))).state.error == ""
    ensures ValidateAndProcessFile(props, s, File(name, MaxBytes(props.maxSize) + 1)).state.error
      == SizeErrorMessage(props.maxSize)
  {
  }

  /** The type check runs first: a file wrong in both type and size reports
      the type. */
  lemma TypeCheckedFirst(props: Props, s: UiState, file: File)
    requires !TypeAccepted(file.name) && file.size > MaxBytes(props.maxSize)
    ensures ValidateAndProcessFile(props, s, file).state.error == TypeErrorMessage
    ensures TypeErrorMessage != SizeErrorMessage(props.maxSize)
  {
    assert TypeErrorMessage[0] != SizeErrorMessage(props.maxSize)[0];
  }

  /** The `accept` prop has no influence on what is accepted. */
  lemma AcceptPropIgnored(p1: Props, p2: Props, s: UiState, file: File)
    requires p1.maxSize == p2.maxSize
    ensures ValidateAndProcessFile(p1, s, file) == ValidateAndProcessFile(p2, s, file)
  {
  }
}

=== FILE: http.dfy ===
/** The request and response shapes the API handlers exchange. */
module Http {
  import opened Models
  import opened Users
  import opened Store

  /** A request: its method (`verb`) and its parsed JSON body. Handlers that
      destructure the body take `B = Option<Fields>`, where `None` is a
      `null` or `undefined` body. */
  datatype Request<B> = Request(verb: string, body: B)

  /** The JSON a handler sends back. */
  datatype Body =
    | Message(message: string)                 // { message }
    | Error(error: string)                     // { error }
    | UploadedUrl(fileUrl: string)             // { fileUrl }
    | PaperDoc(paper: Paper)
    | ConferenceDoc(conference: Conference)
    | ConferenceList(conferences: seq<Conference>)
    | UserCreated(message: string, user: UserSummary)

  datatype Response = Response(status: nat, body: Body)

  /** What the catch-all of the paper, conference and signup handlers sends
      for an exception. */
  const InternalError: Response := Response(500, Message("Internal server error"))

  /** A handler's response together with the database state it leaves. */
  datatype Handled = Handled(response: Response, store: Store)
}

=== FILE: migrate_papers.dfy ===
/** scripts/migrate-papers.js: the one-off backfill that gives every paper
    stored without a `fileUrl` a URL derived from its own id. */
module MigratePapers {
  import opened Wrappers
  import opened Text
  import opened Models
  import opened BlobUrl

  /** The environment variables the script reads. */
  datatype MigrationEnv = MigrationEnv(mongoUri: Option<string>, bucketName: Option<string>)

  /** Why the script exits with status 1. */
  datatype MigrationError = MissingMongoUri | MissingBucketName | ConnectionFailed

  /** The URL the script assigns to a paper: the paper's id used as the
      object key. */
  function DefaultFileUrl(bucket: string, p: Paper): (r: string)
    ensures StripPrefix(r, UrlPrefix(bucket)) == Some(p.id)
  {
    BlobUrl.FileUrl(bucket, p.id)
  }

  /** One step of the loop: a paper without `fileUrl` (the query's
      `{ fileUrl: { $exists: false } }`) gets the default URL; any other
      paper is not selected and stays as it is. */
  function BackfillOne(bucket: string, p: Paper): (r: Paper)
    ensures r.fileUrl.Some?
    ensures r.(fileUrl := p.fileUrl) == p
    ensures p.fileUrl.Some? ==> r == p
  {
    if p.fileUrl.None? then p.(fileUrl := Some(DefaultFileUrl(bucket, p))) else p
  }

  /** The loop over the whole collection. */
  function Backfill(bucket: string, papers: seq<Paper>): (r: seq<Paper>)
    ensures |r| == |papers|
    ensures forall i :: 0 <= i < |papers| ==> r[i] == BackfillOne(bucket, papers[i])
  {
    seq(|papers|, i requires 0 <= i < |papers| => BackfillOne(bucket, papers[i]))
  }

  /** `migratePapers` with its environment checks: no URI, then no bucket
      name, then a failed connection each end the run before any paper is
      touched. `connects` stands for `mongoose.connect` succeeding. */
  function Migrate(env: MigrationEnv, connects: bool, papers: seq<Paper>): (r: Result<seq<Paper>, MigrationError>)
    ensures !Truthy(env.mongoUri) ==> r == Failure(MissingMongoUri)
    ensures Truthy(env.mongoUri) && !Truthy(env.bucketName) ==> r == Failure(MissingBucketName)
    ensures Truthy(env.mongoUri) && Truthy(env.bucketName) && !connects ==> r == Failure(ConnectionFailed)
    ensures r.Success? <==> Truthy(env.mongoUri) && Truthy(env.bucketName) && connects
    ensures r.Success? ==> r.value == Backfill(env.bucketName.value, papers)
  {
    if !Truthy(env.mongoUri) then Failure(MissingMongoUri)
    else if !Truthy(env.bucketName) then Failure(MissingBucketName)
    else if !connects then Failure(ConnectionFailed)
    else Success(Backfill(env.bucketName.value, papers))
  }

  /** After a successful run every paper has a `fileUrl`; the papers that
      had one keep it, and no other field of any paper changes. */
  lemma BackfillEffect(env: MigrationEnv, connects: bool, papers: seq<Paper>)
    requires Migrate(env, connects, papers).Success?
    ensures var after := Migrate(env, connects, papers).value;
      && |after| == |papers|
      && (forall i :: 0 <= i < |after| ==> after[i].fileUrl.Some?)
      && (forall i :: 0 <= i < |after| && papers[i].fileUrl.Some? ==> after[i] == papers[i])
      && (forall i :: 0 <= i < |after| ==> after[i].(fileUrl := papers[i].fileUrl) == papers[i])
  {
  }

  /** A backfilled URL leads back to its paper: removing the bucket's URL
      prefix yields the paper's id. */
  lemma BackfilledUrlNamesPaper(env: MigrationEnv, connects: bool, papers: seq<Paper>, i: nat)
    requires Migrate(env, connects, papers).Success?
    requires i < |papers| && papers[i].fileUrl.None?
    ensures var after := Migrate(env, connects, papers).value;
      StripPrefix(after[i].fileUrl.value, UrlPrefix(env.bucketName.value)) == Some(papers[i].id)
  {
  }

  /** Running the migration a second time changes nothing. */
  lemma MigrateIdempotent(env: MigrationEnv, connects: bool, papers: seq<Paper>)
    requires Migrate(env, connects, papers).Success?
    ensures Migrate(env, connects, Migrate(env, connects, papers).value) == Migrate(env, connects, papers)
  {
    var once := Migrate(env, connects, papers).value;
    var twice := Migrate(env, connects, once).value;
    assert forall i :: 0 <= i < |once| ==> twice[i] == once[i];
    assert twice == once;
  }
}

=== FILE: models.dfy ===
/** The Conference and Paper document schemas of lib/models.ts: stored
    records, the fields a caller hands to `Model.create`, and the validation
    and defaulting that `create` applies before inserting. */
module Models {
  import opened Wrappers

  /** A document `_id` (an ObjectId, rendered as its hex string). */
  type Id = string

  /** A `Date`, as milliseconds since the epoch. */
  type Date = nat

  /** The outcome of a failed schema validation: the paths whose validators
      rejected the value, in schema order. */
  datatype ValidationError = ValidationError(paths: seq<string>)

  /** Why `Model.create` rejects a document: a failed validation, or a value
      that collides with a unique index (`_id`, or `email` for users). */
  datatype CreateError = Invalid(validation: ValidationError) | DuplicateKey(path: string)

  // ---------------------------------------------------------------------
  // Paper status
  // ---------------------------------------------------------------------

  /** The `status` enum of the paper schema. */
  datatype Status = Pending | Accepted | Rejected

  function StatusName(s: Status): string {
    match s
    case Pending => "pending"
    case Accepted => "accepted"
    case Rejected => "rejected"
  }

  /** The enum validator: a stored string is a status only if it is one of
      the three names. */
  function ParseStatus(t: string): (r: Option<Status>)
    ensures r.Some? <==> t in ["pending", "accepted", "rejected"]
  {
    if t == "pending" then Some(Pending)
    else if t == "accepted" then Some(Accepted)
    else if t == "rejected" then Some(Rejected)
    else None
  }

  /** Names and parsing are inverse: every status round-trips through its
      name, and only a status's own name parses to it. */
  lemma StatusRoundTrip(s: Status, t: string)
    ensures ParseStatus(StatusName(s)) == Some(s)
    ensures ParseStatus(t) == Some(s) ==> StatusName(s) == t
  {
  }

  /** The `status` a document receives: the default `pending` when the field
      is omitted, the named status when it is one of the enum values, and a
      validation failure otherwise. */
  function StatusOrDefault(given: Option<string>): (r: Option<Status>)
    ensures given.None? ==> r == Some(Pending)
    ensures given.Some? ==> (r.Some? <==> given.value in ["pending", "accepted", "rejected"])
    ensures r.Some? && given.Some? ==> StatusName(r.value) == given.value
  {
    match given
    case None => Some(Pending)
    case Some(t) => ParseStatus(t)
  }

  // ---------------------------------------------------------------------
  // Conference
  // ---------------------------------------------------------------------

  datatype EventDates = EventDates(start: Date, end: Date)

  /** A stored conference document. `papers` is the ordered list of paper
      ids; nothing prevents it from naming an id twice. */
  datatype Conference = Conference(
    id: Id,
    title: string,
    description: string,
    image: string,
    eventDates: EventDates,
    submissionDeadline: Date,
    papers: seq<Id>,
    createdAt: Date)

  /** The fields a request body may supply to `Conference.create`; absent
      fields are `None`. */
  datatype ConferenceFields = ConferenceFields(
    title: Option<string>,
    description: Option<string>,
    image: Option<string>,
    start: Option<Date>,
    end: Option<Date>,
    submissionDeadline: Option<Date>,
    papers: Option<seq<Id>>,
    createdAt: Option<Date>)

  /** The schema's requirements on a stored conference: the required string
      fields are non-empty. The dates are required too, which the types of
      `Conference` already ensure; no order among them is demanded. */
  predicate ConferenceValid(c: Conference) {
    c.title != "" && c.description != "" && c.image != ""
  }

  /** Every required path of the conference schema holds a value. A string
      path is satisfied only by a non-empty string. */
  predicate ConferenceFieldsComplete(f: ConferenceFields) {
    && Truthy(f.title) && Truthy(f.description) && Truthy(f.image)
    && f.start.Some? && f.end.Some? && f.submissionDeadline.Some?
  }

  function Missing(path: string, present: bool): seq<string> {
    if present then [] else [path]
  }

  /** `Conference.create(fields)` before the insert: validation of the
      required paths, then the defaults (no papers, `createdAt` = now). */
  function CreateConference(f: ConferenceFields, id: Id, now: Date): (r: Result<Conference, ValidationError>)
    ensures r.Success? <==> ConferenceFieldsComplete(f)
    ensures r.Success? ==> ConferenceValid(r.value)
    ensures r.Success? ==>
      && r.value.id == id
      && r.value.title == f.title.value
      && r.value.description == f.description.value
      && r.value.image == f.image.value
      && r.value.eventDates == EventDates(f.start.value, f.end.value)
      && r.value.submissionDeadline == f.submissionDeadline.value
      && r.value.papers == f.papers.GetOr([])
      && r.value.createdAt == f.createdAt.GetOr(now)
    ensures r.Failure? ==> |r.error.paths| > 0
  {
    var missing :=
      Missing("title", Truthy(f.title))
      + Missing("description", Truthy(f.description))
      + Missing("image", Truthy(f.image))
      + Missing("eventDates.start", f.start.Some?)
      + Missing("eventDates.end", f.end.Some?)
      + Missing("submissionDeadline", f.submissionDeadline.Some?);
    if missing != [] then Failure(ValidationError(missing))
    else Success(Conference(
      id, f.title.value, f.description.value, f.image.value,
      EventDates(f.start.value, f.end.value), f.submissionDeadline.value,
      f.papers.GetOr([]), f.createdAt.GetOr(now)))
  }

  /** The schema orders nothing: a conference whose event ends before it
      starts and whose deadline is after both is still accepted. */
  lemma NoDateOrderRequired(id: Id, now: Date)
    ensures CreateConference(ConferenceFields(
      Some("t"), Some("d"), Some("i"), Some(20), Some(10), Some(30), None, None), id, now).Success?
  {
  }

  /** Validity does not look at `papers`, so appending an id that is already
      listed keeps a conference valid. */
  lemma DuplicatePapersAllowed(c: Conference, p: Id)
    requires ConferenceValid(c)
    requires p in c.papers
    ensures ConferenceValid(c.(papers := c.papers + [p]))
    ensures multiset(c.(papers := c.papers + [p]).papers)[p] >= 2
  {
  }

  // ---------------------------------------------------------------------
  // Paper
  // ---------------------------------------------------------------------

  /** A stored paper document. `fileUrl` is `None` for documents written
      before the field existed, which the backfill migration targets. */
  datatype Paper = Paper(
    id: Id,
    title: string,
    abstractText: string,
    fileUrl: Option<string>,
    status: Status,
    author: Id,
    conference: Id,
    createdAt: Date)

  /** The fields a caller supplies to `Paper.create`; absent fields are
      `None`. */
  datatype PaperFields = PaperFields(
    title: Option<string>,
    abstractText: Option<string>,
    fileUrl: Option<string>,
    status: Option<string>,
    author: Option<Id>,
    conference: Option<Id>,
    createdAt: Option<Date>)

  /** The schema's requirements on a stored paper: non-empty title, abstract
      and file URL (author, conference and an enum status are ensured by the
      types of `Paper`). */
  predicate PaperValid(p: Paper) {
    p.title != "" && p.abstractText != "" && Truthy(p.fileUrl)
  }

  /** Every required path of the paper schema holds a value and `status`, if
      given, is one of the enum values. */
  predicate PaperFieldsComplete(f: PaperFields) {
    && Truthy(f.title) && Truthy(f.abstractText) && Truthy(f.fileUrl)
    && f.author.Some? && f.conference.Some?
    && StatusOrDefault(f.status).Some?
  }

  /** `Paper.create(fields)` before the insert: validation, then the
      defaults (`status` = pending, `createdAt` = now). */
  function CreatePaper(f: PaperFields, id: Id, now: Date): (r: Result<Paper, ValidationError>)
    ensures r.Success? <==> PaperFieldsComplete(f)
    ensures r.Success? ==> PaperValid(r.value)
    ensures r.Success? ==>
      && r.value.id == id
      && r.value.title == f.title.value
      && r.value.abstractText == f.abstractText.value
      && r.value.fileUrl == f.fileUrl
      && r.value.author == f.author.value
      && r.value.conference == f.conference.value
      && r.value.createdAt == f.createdAt.GetOr(now)
    ensures r.Success? && f.status.None? ==> r.value.status == Pending
    ensures r.Success? && f.status.Some? ==> StatusName(r.value.status) == f.status.value
    ensures r.Failure? ==> |r.error.paths| > 0
  {
    var status := StatusOrDefault(f.status);
    var missing :=
      Missing("title", Truthy(f.title))
      + Missing("abstract", Truthy(f.abstractText))
      + Missing("fileUrl", Truthy(f.fileUrl))
      + Missing("status", status.Some?)
      + Missing("author", f.author.Some?)
      + Missing("conference", f.conference.Some?);
    if missing != [] then Failure(ValidationError(missing))
    else Success(Paper(
      id, f.title.value, f.abstractText.value, f.fileUrl, status.value,
      f.author.value, f.conference.value, f.createdAt.GetOr(now)))
  }
}

=== FILE: papers_api.dfy ===
/** The POST branch of pages/api/papers/index.ts: creating a paper for the
    signed-in user and linking it into its conference's list. */
module PapersApi {
  import opened Wrappers
  import opened Models
  import opened Store
  import opened Http

  /** The destructured request body. The handler reads no other field, so a
      `status` in the body has no effect. */
  datatype NewPaperBody = NewPaperBody(
    title: Option<string>,
    abstractText: Option<string>,
    fileUrl: Option<string>,
    conferenceId: Option<string>)

  predicate BodyComplete(b: NewPaperBody) {
    Truthy(b.title) && Truthy(b.abstractText) && Truthy(b.fileUrl) && Truthy(b.conferenceId)
  }

  /** The paper a complete body produces for the signed-in user. */
  predicate IsNewPaper(p: Paper, b: NewPaperBody, user: Id, id: Id) {
    && p.id == id
    && b.title == Some(p.title)
    && b.abstractText == Some(p.abstractText)
    && p.fileUrl == b.fileUrl
    && p.status == Pending
    && p.author == user
    && b.conferenceId == Some(p.conference)
  }

  /** The handler. `session` is the signed-in user's id, if any; `newId` is
      the ObjectId `Paper.create` assigns and `now` the creation time. */
  function HandlePapers(req: Request<Option<NewPaperBody>>, session: Option<Id>, newId: Id, now: Date,
                        store: Store): (r: Handled)
    ensures req.verb != "POST" <==> r.response == Response(405, Message("Method not allowed"))
    ensures req.verb == "POST" && session.None? ==> r.response == Response(401, Message("Unauthorized"))
    ensures req.verb == "POST" && session.Some? && req.body.Some? ==>
      (r.response.status == 400 <==> !BodyComplete(req.body.value))
    ensures r.response.status == 400 ==> r.response.body == Message("Missing required fields")
    // a null body, or an insert that collides with an existing `_id`, throws
    // into the catch
    ensures (&& req.verb == "POST" && session.Some?
             && (req.body.None? || (BodyComplete(req.body.value) && PaperIdTaken(store.papers, newId))))
      ==> r.response == InternalError
    ensures r.response.status in {201, 400, 401, 405, 500}
    // every refusal leaves the database as it was
    ensures r.response.status != 201 ==> r.store == store
    // no existence check on the conference: success depends on nothing else
    ensures r.response.status == 201 <==>
      req.verb == "POST" && session.Some? && req.body.Some? && BodyComplete(req.body.value)
      && !PaperIdTaken(store.papers, newId)
    ensures r.response.status == 201 ==>
      && r.response.body.PaperDoc?
      && IsNewPaper(r.response.body.paper, req.body.value, session.value, newId)
      && r.response.body.paper.createdAt == now
      && PaperValid(r.response.body.paper)
      && r.store.papers == store.papers + [r.response.body.paper]
      && r.store.conferences == PushPaper(store.conferences, req.body.value.conferenceId.value, newId)
      && r.store.users == store.users
  {
    if req.verb != "POST" then Handled(Response(405, Message("Method not allowed")), store)
    else if session.None? then Handled(Response(401, Message("Unauthorized")), store)
    // destructuring a null body throws into the catch
    else if req.body.None? then Handled(InternalError, store)
    else
      var b := req.body.value;
      if !BodyComplete(b) then Handled(Response(400, Message("Missing required fields")), store)
      else
        var fields := PaperFields(b.title, b.abstractText, b.fileUrl, Some("pending"),
                                  Some(session.value), b.conferenceId, None);
        match CreatePaper(fields, newId, now)
        case Failure(_) => Handled(InternalError, store)
        case Success(paper) =>
          match InsertPaper(store.papers, paper)
          case Failure(_) => Handled(InternalError, store)
          case Success(papers) =>
            var conferences := PushPaper(store.conferences, b.conferenceId.value, paper.id);
            Handled(Response(201, PaperDoc(paper)), store.(papers := papers, conferences := conferences))
  }

  /** On success the new id is appended once, at the end of its conference's
      list; the earlier entries of that list and every other conference are
      unchanged. */
  lemma NewPaperLinkedOnce(req: Request<Option<NewPaperBody>>, session: Option<Id>, newId: Id, now: Date,
                           store: Store, k: nat)
    requires HandlePapers(req, session, newId, now, store).response.status == 201
    requires FindConference(store.conferences, req.body.value.conferenceId.value) == Some(k)
    ensures var after := HandlePapers(req, session, newId, now, store).store.conferences;
      && |after| == |store.conferences|
      && after[k].papers == store.conferences[k].papers + [newId]
      && multiset(after[k].papers)[newId] == multiset(store.conferences[k].papers)[newId] + 1
      && (newId !in store.conferences[k].papers ==> multiset(after[k].papers)[newId] == 1)
      && forall j :: 0 <= j < |after| && j != k ==> after[j] == store.conferences[j]
  {
  }

  /** An unknown conference id does not stop the paper from being created,
      and then no conference changes. */
  lemma UnknownConferenceStillCreated(req: Request<Option<NewPaperBody>>, session: Option<Id>, newId: Id,
                                      now: Date, store: Store)
    requires req.verb == "POST" && session.Some? && req.body.Some? && BodyComplete(req.body.value)
    requires !PaperIdTaken(store.papers, newId)
    requires !ConferenceIdTaken(store.conferences, req.body.value.conferenceId.value)
    ensures var r := HandlePapers(req, session, newId, now, store);
      && r.response.status == 201
      && r.store.conferences == store.conferences
      && |r.store.papers| == |store.papers| + 1
      && r.store.papers[|store.papers|].conference == req.body.value.conferenceId.value
  {
  }
}

=== FILE: signup.dfy ===
/** pages/api/auth/signup.ts: registering a user with a unique email and a
    hashed password. The hash (bcrypt with its random salt) is a parameter. */
module Signup {
  import opened Wrappers
  import opened Models
  import opened Users
  import opened Store
  import opened Http

  /** The destructured request body. */
  datatype SignupBody = SignupBody(email: Option<string>, password: Option<string>, name: Option<string>)

  /** `User.findOne({ email })` for the body's email. An absent email is
      looked up as `null`, which matches no stored user since every stored
      user has an email. */
  predicate AlreadyRegistered(users: seq<User>, email: Option<string>) {
    email.Some? && EmailTaken(users, email.value)
  }

  /** The handler. `hash` stands for `bcrypt.hash(·, 10)`; `newId` is the
      ObjectId `User.create` assigns and `now` the creation time. */
  function HandleSignup(req: Request<Option<SignupBody>>, hash: string -> string, newId: Id, now: Date,
                        store: Store): (r: Handled)
    ensures req.verb != "POST" <==> r.response == Response(405, Message("Method not allowed"))
    ensures req.verb == "POST" && req.body.Some? ==>
      (r.response == Response(400, Message("User already exists")) <==>
        AlreadyRegistered(store.users, req.body.value.email))
    // a null body, a missing password (bcrypt throws) and a create that fails
    // validation or collides all end in the catch
    ensures (&& req.verb == "POST" && r.response.status != 201
             && !(req.body.Some? && AlreadyRegistered(store.users, req.body.value.email)))
      ==> r.response == InternalError
    ensures req.verb == "POST" && req.body.None? ==> r.response == InternalError
    ensures (&& req.verb == "POST" && req.body.Some?
             && !AlreadyRegistered(store.users, req.body.value.email)
             && req.body.value.password.None?)
      ==> r.response == InternalError
    ensures r.response.status in {201, 400, 405, 500}
    // only the users collection is ever written, and only on success
    ensures r.store.conferences == store.conferences && r.store.papers == store.papers
    ensures r.response.status != 201 ==> r.store == store
    ensures r.response.status == 201 <==>
      && req.verb == "POST" && req.body.Some?
      && !AlreadyRegistered(store.users, req.body.value.email)
      && req.body.value.password.Some?
      && UserFieldsComplete(UserFields(req.body.value.email, Some(hash(req.body.value.password.value)),
                                       req.body.value.name, None))
      && !UserIdTaken(store.users, newId)
    ensures r.response.status == 201 ==>
      && |r.store.users| == |store.users| + 1
      && r.store.users[..|store.users|] == store.users
      && var u := r.store.users[|store.users|];
      && u.id == newId
      && u.createdAt == now
      && Some(u.email) == req.body.value.email
      && Some(u.name) == req.body.value.name
      && u.password == hash(req.body.value.password.value)
      && r.response.body == UserCreated("User created successfully", UserSummary(u.id, u.email, u.name))
  {
    if req.verb != "POST" then Handled(Response(405, Message("Method not allowed")), store)
    // destructuring a null body throws into the catch
    else if req.body.None? then Handled(InternalError, store)
    else
      var b := req.body.value;
      if AlreadyRegistered(store.users, b.email) then Handled(Response(400, Message("User already exists")), store)
      // bcrypt throws on a missing password
      else if b.password.None? then Handled(InternalError, store)
      else
        match CreateUser(UserFields(b.email, Some(hash(b.password.value)), b.name, None), newId, now)
        case Failure(_) => Handled(InternalError, store)
        case Success(u) =>
          match InsertUser(store.users, u)
          case Failure(_) => Handled(InternalError, store)
          case Success(users) =>
            Handled(Response(201, UserCreated("User created successfully", Summary(u))), store.(users := users))
  }

  /** Signing up never makes two users share an email. */
  lemma SignupKeepsEmailsUnique(req: Request<Option<SignupBody>>, hash: string -> string, newId: Id, now: Date,
                                store: Store)
    requires UniqueEmails(store.users)
    ensures UniqueEmails(HandleSignup(req, hash, newId, now, store).store.users)
  {
  }

  /** A second signup with an email that the first one registered is refused
      and changes nothing. */
  lemma SecondSignupRefused(req1: Request<Option<SignupBody>>, req2: Request<Option<SignupBody>>,
                            hash: string -> string, id1: Id, id2: Id, now1: Date, now2: Date, store: Store)
    requires HandleSignup(req1, hash, id1, now1, store).response.status == 201
    requires req2.verb == "POST" && req2.body.Some? && req2.body.value.email == req1.body.value.email
    ensures var after := HandleSignup(req1, hash, id1, now1, store).store;
      var r := HandleSignup(req2, hash, id2, now2, after);
      r.response == Response(400, Message("User already exists")) && r.store == after
  {
  }
}

=== FILE: store.dfy ===
/** The three collections of the document database, each an insertion-ordered
    sequence of documents (MongoDB's natural order), and the two writes the
    paper and conference handlers issue: insert and `$push` by id. */
module Store {
  import opened Wrappers
  import opened Models
  import opened Users

  datatype Store = Store(users: seq<User>, conferences: seq<Conference>, papers: seq<Paper>)

  predicate PaperIdTaken(papers: seq<Paper>, id: Id) {
    exists i :: 0 <= i < |papers| && papers[i].id == id
  }

  predicate ConferenceIdTaken(conferences: seq<Conference>, id: Id) {
    exists i :: 0 <= i < |conferences| && conferences[i].id == id
  }

  /** The insert behind `Paper.create`: a colliding `_id` is rejected by the
      unique index, otherwise the document is appended. */
  function InsertPaper(papers: seq<Paper>, p: Paper): (r: Result<seq<Paper>, CreateError>)
    ensures r.Success? <==> !PaperIdTaken(papers, p.id)
    ensures r.Success? ==> r.value == papers + [p]
  {
    if PaperIdTaken(papers, p.id) then Failure(DuplicateKey("_id")) else Success(papers + [p])
  }

  /** The insert behind `Conference.create`. */
  function InsertConference(conferences: seq<Conference>, c: Conference): (r: Result<seq<Conference>, CreateError>)
    ensures r.Success? <==> !ConferenceIdTaken(conferences, c.id)
    ensures r.Success? ==> r.value == conferences + [c]
  {
    if ConferenceIdTaken(conferences, c.id) then Failure(DuplicateKey("_id")) else Success(conferences + [c])
  }

  /** The position of the first conference with the given id, as
      `findById` resolves it. */
  function FindConference(conferences: seq<Conference>, id: Id): (r: Option<nat>)
    ensures r.None? <==> !ConferenceIdTaken(conferences, id)
    ensures r.Some? ==> r.value < |conferences| && conferences[r.value].id == id
    ensures r.Some? ==> forall j :: 0 <= j < r.value ==> conferences[j].id != id
    decreases |conferences|
  {
    if |conferences| == 0 then None
    else if conferences[0].id == id then Some(0)
    else match FindConference(conferences[1..], id)
      case None => None
      case Some(k) => Some(k + 1)
  }

  /** `Conference.findByIdAndUpdate(id, { $push: { papers: paper } })`: the
      conference with that id gets `paper` appended to its list; when there is
      no such conference nothing changes and no error is raised. */
  function PushPaper(conferences: seq<Conference>, id: Id, paper: Id): (r: seq<Conference>)
    ensures FindConference(conferences, id).None? ==> r == conferences
    ensures FindConference(conferences, id).Some? ==>
      var k := FindConference(conferences, id).value;
      r == conferences[k := conferences[k].(papers := conferences[k].papers + [paper])]
    decreases |conferences|
  {
    if |conferences| == 0 then []
    else if conferences[0].id == id then
      [conferences[0].(papers := conferences[0].papers + [paper])] + conferences[1..]
    else [conferences[0]] + PushPaper(conferences[1..], id, paper)
  }
}

=== FILE: text.dfy ===
/** String operations of JavaScript that the handlers rely on: lower-casing,
    `split(c).pop()`, `indexOf`, prefix stripping, and the decimal rendering
    of a non-negative integer inside a template literal. */
module Text {
  import opened Wrappers

  /** `toLowerCase` on one character, restricted to ASCII letters. */
  function LowerChar(c: char): (r: char)
    ensures 'A' <= c <= 'Z' ==> r as int == c as int + 32
    ensures !('A' <= c <= 'Z') ==> r == c
  {
    if 'A' <= c <= 'Z' then (c as int + 32) as char else c
  }

  /** `toLowerCase` on a string, character by character. */
  function Lower(s: string): (r: string)
    ensures |r| == |s|
    ensures forall i :: 0 <= i < |s| ==> r[i] == LowerChar(s[i])
  {
    seq(|s|, i requires 0 <= i < |s| => LowerChar(s[i]))
  }

  /** `s.split(c).pop()`: the text after the last `c`, or all of `s` when it
      holds no `c`. The three postconditions determine the result uniquely
      (see `AfterLastUnique`). */
  function AfterLast(s: string, c: char): (r: string)
    ensures c !in r
    ensures |r| <= |s| && s[|s| - |r|..] == r
    ensures |r| < |s| ==> s[|s| - |r| - 1] == c
    decreases |s|
  {
    if |s| == 0 || s[|s| - 1] == c then []
    else AfterLast(s[..|s| - 1], c) + [s[|s| - 1]]
  }

  /** `t` ends with the separator `c` followed by `x`, or is `x` itself. */
  predicate SegmentAtEnd(t: string, c: char, x: string) {
    t == x || (|t| > |x| && t[|t| - |x| - 1] == c && t[|t| - |x|..] == x)
  }

  /** Characterisation of `AfterLast` by its shape rather than its recursion. */
  lemma AfterLastUnique(t: string, c: char, x: string)
    requires c !in x
    ensures AfterLast(t, c) == x <==> SegmentAtEnd(t, c, x)
  {
  }

  /** Lower-casing commutes with taking the text after the last `c`, when
      `c` is not an ASCII letter. */
  lemma LowerAfterLast(s: string, c: char)
    requires !('A' <= c <= 'Z') && !('a' <= c <= 'z')
    ensures Lower(AfterLast(s, c)) == AfterLast(Lower(s), c)
  {
    var r := AfterLast(s, c);
    LowerKeepsNonLetter(r, c);
    LowerSuffix(s, |s| - |r|);
    assert SegmentAtEnd(Lower(s), c, Lower(r));
    AfterLastUnique(Lower(s), c, Lower(r));
  }

  lemma LowerKeepsNonLetter(r: string, c: char)
    requires !('A' <= c <= 'Z') && !('a' <= c <= 'z')
    ensures c in Lower(r) <==> c in r
  {
  }

  lemma LowerSuffix(s: string, k: nat)
    requires k <= |s|
    ensures Lower(s)[k..] == Lower(s[k..])
  {
  }

  /** `s.indexOf(c)`, with `-1` rendered as `None`. */
  function IndexOf(s: string, c: char): (r: Option<nat>)
    ensures r.None? <==> c !in s
    ensures r.Some? ==> r.value < |s| && s[r.value] == c
    ensures r.Some? ==> forall j :: 0 <= j < r.value ==> s[j] != c
    decreases |s|
  {
    if |s| == 0 then None
    else if s[0] == c then Some(0)
    else match IndexOf(s[1..], c)
      case None => None
      case Some(k) => Some(k + 1)
  }

  /** The first `c` of `a + [c] + b` is the one after `a` when `a` has none. */
  lemma IndexOfAfter(a: string, c: char, b: string)
    requires c !in a
    ensures IndexOf(a + [c] + b, c) == Some(|a|)
  {
    var s := a + [c] + b;
    assert s[|a|] == c;
    assert forall j :: 0 <= j < |a| ==> s[j] == a[j];
  }

  /** `s` with the leading `prefix` removed, or `None` when `s` does not
      start with `prefix`. */
  function StripPrefix(s: string, prefix: string): (r: Option<string>)
    ensures r.Some? <==> |prefix| <= |s| && s[..|prefix|] == prefix
    ensures r.Some? ==> s == prefix + r.value
  {
    if |prefix| <= |s| && s[..|prefix|] == prefix then Some(s[|prefix|..]) else None
  }

  /** The character for one decimal digit. */
  function DigitChar(d: nat): (r: char)
    requires d < 10
    ensures '0' <= r <= '9'
    ensures r as int - '0' as int == d
  {
    ('0' as int + d) as char
  }

  predicate IsDigits(s: string) {
    forall i :: 0 <= i < |s| ==> '0' <= s[i] <= '9'
  }

  /** How a template literal renders a non-negative integer: its decimal
      digits, no sign, no leading zeros. */
  function Decimal(n: nat): (r: string)
    ensures 0 < |r|
    ensures IsDigits(r)
    ensures |r| > 1 ==> r[0] != '0'
  {
    if n < 10 then [DigitChar(n)] else Decimal(n / 10) + [DigitChar(n % 10)]
  }

  /** The value of a string of decimal digits, most significant first. */
  function ParseDecimal(s: string): nat
    requires IsDigits(s)
  {
    if |s| == 0 then 0
    else ParseDecimal(s[..|s| - 1]) * 10 + (s[|s| - 1] as int - '0' as int)
  }

  /** Reading back a rendered integer yields that integer. */
  lemma {:induction false} DecimalRoundTrip(n: nat)
    ensures ParseDecimal(Decimal(n)) == n
  {
    if n >= 10 {
      DecimalRoundTrip(n / 10);
      var d := Decimal(n);
      assert d[..|d| - 1] == Decimal(n / 10);
    }
  }

  /** Distinct integers render as distinct strings. */
  lemma DecimalInjective(m: nat, n: nat)
    requires Decimal(m) == Decimal(n)
    ensures m == n
  {
    DecimalRoundTrip(m);
    DecimalRoundTrip(n);
  }
}

=== FILE: upload_url.dfy ===
/** The upload endpoint of pages/api/papers/upload-url.ts: the ladder of
    checks, the calls made to Backblaze B2 and their order, the object key,
    the data-URL payload and the returned download URL. The B2 service is
    not modelled; how each of its calls turns out is a parameter. */
module UploadUrl {
  import opened Wrappers
  import opened Text
  import opened Models
  import opened Http
  import opened BlobUrl

  /** The destructured request body. */
  datatype UploadFields = UploadFields(fileName: Option<string>, contentType: Option<string>, fileData: Option<string>)

  /** The environment variables the endpoint reads. */
  datatype B2Env = B2Env(
    keyId: Option<string>,
    key: Option<string>,
    bucketId: Option<string>,
    bucketName: Option<string>)

  /** How each remote step turns out: `authorize`, `getUploadUrl`, the upload
      POST answering `ok`, and its response body parsing as JSON. */
  datatype B2Behaviour = B2Behaviour(
    authorizes: bool,
    grantsUploadUrl: bool,
    acceptsUpload: bool,
    repliesJson: bool)

  /** A call to the storage service. `UploadFile` carries the X-Bz-File-Name
      header, the Content-Type header and the base64 text decoded into the
      request body. */
  datatype B2Call =
    | Authorize
    | GetUploadUrl(bucketId: string)
    | UploadFile(objectKey: string, contentType: string, base64: string)

  /** The response, and the calls to the storage service in the order made. */
  datatype Outcome = Outcome(response: Response, calls: seq<B2Call>)

  const AuthorizeFailed: string := "Failed to authorize with Backblaze"
  const UploadFailed: string := "Failed to upload file to Backblaze"

  /** `fileData.split(',')[1]`: the text between the first and the second ','
      (or the end); `None` when there is no ',' at all, where the element is
      `undefined` and decoding it throws. */
  function DataPayload(fileData: string): (r: Option<string>)
    ensures r.None? <==> ',' !in fileData
    ensures r.Some? ==> ',' !in r.value
  {
    match IndexOf(fileData, ',')
    case None => None
    case Some(i) =>
      var rest := fileData[i + 1..];
      match IndexOf(rest, ',')
      case None => Some(rest)
      case Some(j) => Some(rest[..j])
  }

  /** For a data URL `data:<mediatype>;base64,<data>` (section 3 of RFC 2397),
      whose header and data hold no ',', the payload is the data; text after
      a further ',' is dropped. */
  lemma DataPayloadOfDataUrl(header: string, data: string, trailer: string)
    requires ',' !in header && ',' !in data
    requires trailer == [] || trailer[0] == ','
    ensures DataPayload(header + [','] + data + trailer) == Some(data)
  {
    var s := header + [','] + data + trailer;
    assert s == header + [','] + (data + trailer);
    IndexOfAfter(header, ',', data + trailer);
    var rest := s[|header| + 1..];
    assert rest == data + trailer;
    if trailer == [] {
      assert rest == data;
    } else {
      assert rest == data + [','] + trailer[1..];
      IndexOfAfter(data, ',', trailer[1..]);
      assert rest[..|data|] == data;
    }
  }

  /** Every check that precedes the first call to the storage service. */
  predicate ChecksPass(req: Request<Option<UploadFields>>, session: Option<Id>, env: B2Env) {
    && req.verb == "POST"
    && session.Some?
    && req.body.Some?
    && Truthy(req.body.value.fileName)
    && Truthy(req.body.value.contentType)
    && Truthy(req.body.value.fileData)
    && Truthy(env.keyId) && Truthy(env.key) && Truthy(env.bucketId)
  }

  /** The handler. `session` is the signed-in user's id, if any; `now` is
      `Date.now()` when the key is made. */
  function HandleUploadUrl(req: Request<Option<UploadFields>>, session: Option<Id>, env: B2Env,
                           b2: B2Behaviour, now: nat): (r: Outcome)
    // the ladder, in the order the checks run
    ensures req.verb != "POST" <==> r.response == Response(405, Error("Method not allowed"))
    ensures req.verb == "POST" && session.None? ==> r.response == Response(401, Error("Unauthorized"))
    ensures req.verb == "POST" && session.Some? && req.body.Some? ==>
      (r.response.status == 400 <==>
        !Truthy(req.body.value.fileName) || !Truthy(req.body.value.contentType) || !Truthy(req.body.value.fileData))
    ensures req.verb == "POST" && session.Some? && req.body.None? ==>
      r.response == Response(500, Error("Internal server error")) && r.calls == []
    ensures r.response.status == 400 ==> r.response.body == Error("Missing required fields")
    ensures r.response == Response(500, Error("Server configuration error")) <==>
      && req.verb == "POST" && session.Some? && req.body.Some?
      && Truthy(req.body.value.fileName) && Truthy(req.body.value.contentType) && Truthy(req.body.value.fileData)
      && !(Truthy(env.keyId) && Truthy(env.key) && Truthy(env.bucketId))
    // no call to the storage service before every check has passed
    ensures r.calls != [] <==> ChecksPass(req, session, env)
    ensures r.calls != [] ==> r.calls[0] == Authorize
    ensures r.response.body == Error(AuthorizeFailed) <==> ChecksPass(req, session, env) && !b2.authorizes
    ensures ChecksPass(req, session, env) && !b2.authorizes ==>
      r.response.status == 500 && r.calls == [Authorize]
    // once authorized, getUploadUrl is always called, and every later failure
    // (no upload URL, no ',' in the payload, a refused upload or a reply that
    // is not JSON) is reported the same way
    ensures ChecksPass(req, session, env) && b2.authorizes ==>
      |r.calls| >= 2 && r.calls[1] == GetUploadUrl(env.bucketId.value)
    ensures ChecksPass(req, session, env) && b2.authorizes && r.response.status != 200 ==>
      r.response == Response(500, Error(UploadFailed))
    // the upload POST is made exactly when getUploadUrl succeeded and the
    // payload could be extracted
    ensures ChecksPass(req, session, env) && b2.authorizes ==>
      (|r.calls| == 3 <==> b2.grantsUploadUrl && DataPayload(req.body.value.fileData.value).Some?)
    ensures |r.calls| <= 3
    ensures |r.calls| == 3 ==>
      r.calls[2] == UploadFile(ObjectKey(session.value, now, req.body.value.fileName.value),
                               req.body.value.contentType.value,
                               DataPayload(req.body.value.fileData.value).value)
    // the bytes go out only after authorize and getUploadUrl have both succeeded
    ensures forall i :: 0 <= i < |r.calls| && r.calls[i].UploadFile? ==>
      i == 2 && b2.authorizes && b2.grantsUploadUrl
      && r.calls[1] == GetUploadUrl(env.bucketId.value)
      && DataPayload(req.body.value.fileData.value) == Some(r.calls[i].base64)
      && r.calls[i].objectKey == ObjectKey(session.value, now, req.body.value.fileName.value)
      && r.calls[i].contentType == req.body.value.contentType.value
    // success carries only the URL of the stored object
    ensures r.response.status == 200 <==>
      ChecksPass(req, session, env) && b2.authorizes && b2.grantsUploadUrl
      && DataPayload(req.body.value.fileData.value).Some? && b2.acceptsUpload && b2.repliesJson
    ensures r.response.status == 200 ==>
      && |r.calls| == 3 && r.calls[2].UploadFile?
      && r.response.body == UploadedUrl(FileUrl(BucketText(env.bucketName), r.calls[2].objectKey))
    ensures r.response.status in {200, 400, 401, 405, 500}
  {
    if req.verb != "POST" then Outcome(Response(405, Error("Method not allowed")), [])
    else if session.None? then Outcome(Response(401, Error("Unauthorized")), [])
    // destructuring a null body throws into the outer catch
    else if req.body.None? then Outcome(Response(500, Error("Internal server error")), [])
    else
      var f := req.body.value;
      if !Truthy(f.fileName) || !Truthy(f.contentType) || !Truthy(f.fileData) then
        Outcome(Response(400, Error("Missing required fields")), [])
      else if !Truthy(env.keyId) || !Truthy(env.key) || !Truthy(env.bucketId) then
        Outcome(Response(500, Error("Server configuration error")), [])
      else if !b2.authorizes then
        Outcome(Response(500, Error(AuthorizeFailed)), [Authorize])
      else
        var granted := [Authorize, GetUploadUrl(env.bucketId.value)];
        if !b2.grantsUploadUrl then Outcome(Response(500, Error(UploadFailed)), granted)
        else
          var key := ObjectKey(session.value, now, f.fileName.value);
          match DataPayload(f.fileData.value)
          case None => Outcome(Response(500, Error(UploadFailed)), granted)
          case Some(payload) =>
            var calls := granted + [UploadFile(key, f.contentType.value, payload)];
            if !b2.acceptsUpload || !b2.repliesJson then Outcome(Response(500, Error(UploadFailed)), calls)
            else Outcome(Response(200, UploadedUrl(FileUrl(BucketText(env.bucketName), key))), calls)
  }

  /** The URL handed back names exactly the object that was uploaded:
      removing the bucket's URL prefix yields the X-Bz-File-Name sent, and
      that name is the user's id, the timestamp and the file name. */
  lemma ReturnedUrlNamesUploadedObject(req: Request<Option<UploadFields>>, session: Option<Id>, env: B2Env,
                                       b2: B2Behaviour, now: nat)
    requires HandleUploadUrl(req, session, env, b2, now).response.status == 200
    ensures var r := HandleUploadUrl(req, session, env, b2, now);
      && r.calls[2].UploadFile?
      && StripPrefix(r.response.body.fileUrl, UrlPrefix(BucketText(env.bucketName))) == Some(r.calls[2].objectKey)
      && (session.Some? && '/' !in session.value ==>
            ParseObjectKey(r.calls[2].objectKey)
              == Some(KeyParts(session.value, now, req.body.value.fileName.value)))
  {
    var r := HandleUploadUrl(req, session, env, b2, now);
    KeyFromFileUrl(BucketText(env.bucketName), r.calls[2].objectKey);
    if '/' !in session.value {
      ObjectKeyRoundTrip(session.value, now, req.body.value.fileName.value);
    }
  }

  /** Two successful uploads by users whose ids contain no '/' return the
      same URL only if user, timestamp and file name agree. */
  lemma DistinctUploadsDistinctUrls(req1: Request<Option<UploadFields>>, s1: Id, now1: nat,
                                    req2: Request<Option<UploadFields>>, s2: Id, now2: nat,
                                    env: B2Env, b2: B2Behaviour)
    requires '/' !in s1 && '/' !in s2
    requires HandleUploadUrl(req1, Some(s1), env, b2, now1).response.status == 200
    requires HandleUploadUrl(req2, Some(s2), env, b2, now2).response.status == 200
    requires HandleUploadUrl(req1, Some(s1), env, b2, now1).response
          == HandleUploadUrl(req2, Some(s2), env, b2, now2).response
    ensures s1 == s2 && now1 == now2 && req1.body.value.fileName == req2.body.value.fileName
  {
    var r1 := HandleUploadUrl(req1, Some(s1), env, b2, now1);
    var r2 := HandleUploadUrl(req2, Some(s2), env, b2, now2);
    FileUrlInjective(BucketText(env.bucketName), r1.calls[2].objectKey, r2.calls[2].objectKey);
    ObjectKeyInjective(s1, now1, req1.body.value.fileName.value, s2, now2, req2.body.value.fileName.value);
  }
}

=== FILE: users.dfy ===
/** The User document schema of models/User.ts. The schema declares exactly
    `email` (required, unique), `password` (required), `name` (required) and
    `createdAt` (defaulting to the creation time); `User` has those fields
    and the document id, nothing else. */
module Users {
  import opened Wrappers
  import opened Models

  /** A stored user. `password` holds whatever the caller stored, which the
      signup handler makes the password's hash. */
  datatype User = User(id: Id, email: string, password: string, name: string, createdAt: Date)

  /** The fields a caller supplies to `User.create`. */
  datatype UserFields = UserFields(
    email: Option<string>,
    password: Option<string>,
    name: Option<string>,
    createdAt: Option<Date>)

  /** The three required paths hold non-empty strings. */
  predicate UserFieldsComplete(f: UserFields) {
    Truthy(f.email) && Truthy(f.password) && Truthy(f.name)
  }

  /** The schema's requirements on a stored user. */
  predicate UserValid(u: User) {
    u.email != "" && u.password != "" && u.name != ""
  }

  /** Validation and defaulting of `User.create`, before the insert. */
  function CreateUser(f: UserFields, id: Id, now: Date): (r: Result<User, ValidationError>)
    ensures r.Success? <==> UserFieldsComplete(f)
    ensures r.Success? ==> UserValid(r.value)
    ensures r.Success? ==>
      && r.value.id == id
      && r.value.email == f.email.value
      && r.value.password == f.password.value
      && r.value.name == f.name.value
      && r.value.createdAt == f.createdAt.GetOr(now)
    ensures r.Failure? ==> |r.error.paths| > 0
  {
    var missing :=
      Missing("email", Truthy(f.email))
      + Missing("password", Truthy(f.password))
      + Missing("name", Truthy(f.name));
    if missing != [] then Failure(ValidationError(missing))
    else Success(User(id, f.email.value, f.password.value, f.name.value, f.createdAt.GetOr(now)))
  }

  /** The unique index on `email`: no two stored users share one. */
  predicate UniqueEmails(users: seq<User>) {
    forall i, j :: 0 <= i < |users| && 0 <= j < |users| && i != j ==> users[i].email != users[j].email
  }

  /** `User.findOne({ email })` finds a user. */
  predicate EmailTaken(users: seq<User>, email: string) {
    exists i :: 0 <= i < |users| && users[i].email == email
  }

  predicate UserIdTaken(users: seq<User>, id: Id) {
    exists i :: 0 <= i < |users| && users[i].id == id
  }

  /** The insert behind `User.create`: the unique indexes on `_id` and
      `email` reject a colliding document, otherwise it is appended. */
  function InsertUser(users: seq<User>, u: User): (r: Result<seq<User>, CreateError>)
    ensures r.Success? <==> !UserIdTaken(users, u.id) && !EmailTaken(users, u.email)
    ensures r.Success? ==> r.value == users + [u]
  {
    if UserIdTaken(users, u.id) then Failure(DuplicateKey("_id"))
    else if EmailTaken(users, u.email) then Failure(DuplicateKey("email"))
    else Success(users + [u])
  }

  /** Every successful insert keeps emails unique. */
  lemma InsertKeepsEmailsUnique(users: seq<User>, u: User)
    requires UniqueEmails(users)
    requires InsertUser(users, u).Success?
    ensures UniqueEmails(InsertUser(users, u).value)
  {
  }

  /** What a client is told about a user: id, email and name. The type has
      no place for a password. */
  datatype UserSummary = UserSummary(id: Id, email: string, name: string)

  function Summary(u: User): (r: UserSummary)
    ensures r.id == u.id && r.email == u.email && r.name == u.name
  {
    UserSummary(u.id, u.email, u.name)
  }
}

=== FILE: wrappers.dfy ===
/** Option and Result wrappers, and JavaScript truthiness, shared by every
    module of the model. */
module Wrappers {

  /** A value that may be absent: a JSON field or environment variable that is
      `undefined` (or `null`) is `None`. */
  datatype Option<+T> = None | Some(value: T) {

    /** Returns the value in `Some`, or `default` when absent. */
    function GetOr(default: T): T {
      match this
      case Some(v) => v
      case None => default
    }
  }

  /** The outcome of an operation that can fail with an error value. */
  datatype Result<+R, +E> = Success(value: R) | Failure(error: E)

  /** JavaScript truthiness of an optional string: `undefined`, `null` and the
      empty string are falsy, every other string is truthy. */
  predicate Truthy(s: Option<string>) {
    s.Some? && s.value != ""
  }
}
